=== FILE: README.md ===
# Lobby bot state machine

This project is a Dafny model of the lobby logic of a Discord bot (`app.py`).
The bot watches one voice channel (the *monitor* channel) and keeps a *roster*
of the users in it, each either READY or NOT READY. Players ready up by
reacting with ✅ on a *status message* in a *text* channel. The bot keeps that
message's id and edits the message in place whenever the lobby changes.

The model is functional. The bot's globals are one immutable `Lobby.State`:
- the two optional channels;
- the roster;
- the optional message id.

Each event handler is a pure transition. It returns the new state and what it
did to the status message (`Edited`, `Sent` or `Skipped`). Whatever the
platform answers during an event is an explicit `RenderEnv` input:
- the ids of the members now in the voice channel;
- a display-name function;
- whether fetching the stored message finds it;
- the id of a newly sent message.

Modules:
- `Roster` models the Python dict `lobby_users` as an ordered sequence of
  entries with distinct ids.
  - Assigning a key overwrites it in place, or appends a new key at the end.
  - `pop` cuts the entry out.
  - The filtering comprehension keeps a subsequence.
  - `ToMap` is the order-free reference meaning of the dict, and `IndexOf`
    gives a key's position.
- `Text` models decimal rendering of the headcount and `"\n".join`. It also
  has a line splitter that the status reader uses, with round-trip lemmas.
- `Status` builds the status text exactly as the bot concatenates it. It also
  has a reader, `DecodeContent`, that recovers the headcount and the player
  rows. `DecodeContentOfContent` proves that every rendered text reads back
  as the view it was built from.
- `Lobby` holds the state and one function per handler: render, voice update,
  reaction add/remove, startup, and the two channel commands.
- `Trace` models runs of delivered events, with lemmas about whole runs.
- `Scenarios` is a worked run: join, ready up, message deleted, un-ready.

Points where the code decides behaviour:
- **Truthiness of the message id.** The code tests the message id by
  truthiness (`if lobby_message_id:`) before it tests `is None`. A stored id
  of `0` is therefore neither edited nor replaced: the render does nothing to
  the message. `HasMessage` models the truthiness test, and `Render`'s
  contract states this case.
- **Joins when no monitor channel is set.** Channels are compared by plain
  equality on optional values. With no monitor channel set, a disconnect
  (new channel `None`) counts as a join.
- **Exception in the reaction-remove guard.** In the reaction-remove handler,
  an exception raised while checking the bot/channel guard is swallowed, and
  the handler goes on without that filter. `OnReactionRemove` takes this as
  its `guardRaised` input.
- **Contents of the message-id file.** The id file does not hold only a
  decimal integer or nothing. When the startup path clears the id, the code
  writes `str(None)`, that is `None` (app.py:155). Reading that text back
  fails to parse, which gives no id, so `LoadMessageId` maps an unparsable
  file to no id.

## Model

| member | source | states |
|---|---|---|
| Roster.Assign | app.py:42 | `roster[u] = v`. Afterwards `u` maps to `v` and every other key is unchanged. An existing key is overwritten at its own position. A new key is appended at the end. Ids stay distinct. |
| Roster.AssignTwice | app.py:42 | Assigning the same flag to the same key twice gives the same roster as assigning it once. |
| Roster.Pop | app.py:47 | `roster.pop(u, None)` removes `u` from the dict. The other entries keep their contents and order (the entry is cut out at its index). An absent `u` leaves the roster unchanged. |
| Roster.Restrict | app.py:73-76 | The dict comprehension keeps exactly the entries whose id is a live member, with their flags. The result is a subsequence of the roster, so roster order is kept. The number of entries kept, which is the headcount shown, equals the number of roster keys that are live members. |
| Roster.ToMapSize | app.py:21 | A dict has as many keys as entries: no id occurs twice in the roster. |
| Text.NatToString | app.py:76 | The `{len(...)}` in the headcount line: a non-empty string of decimal digits with no leading zero except for 0 itself. That it reads back as the number is `Text.DigitsValueOfNatToString`. |
| Text.Join | app.py:85 | `"\n".join(player_lines)`. It has no contract of its own; `Text.SplitJoin` and `Text.JoinAppend` give it its meaning. |
| Text.DigitsValueOfNatToString | app.py:76 | The decimal text of the headcount reads back as the headcount. |
| Text.SplitJoin | app.py:85 | Joining newline-free player lines with `"\n"` and splitting the result gives back the lines. |
| Text.JoinAppend | app.py:85-86 | Joining two non-empty lists of lines puts exactly one newline between their joins. |
| Status.CountText | app.py:76 | The headcount line. It has no contract of its own; `Status.ParseCountTextOfCountText` shows it reads back as its number. |
| Status.PlayerLine | app.py:82-83 | `<display name> - READY` or `<display name> - NOT READY`. It has no contract of its own; `Status.ParsePlayerLineOfPlayerLine` shows it reads back as its name and flag. |
| Status.PlayerLines | app.py:79-84 | The loop that builds `player_lines`: one line per shown player, in the filtered roster's order. Its contract gives the line count; `Status.ParseRowsOfPlayerLines` shows the lines read back as one row per player, in order, with each player's flag. |
| Status.Content | app.py:68-86 | The status message text. It has no contract of its own; `Status.ContentLines` gives its line structure and `Status.DecodeContentOfContent` shows it reads back as the view. |
| Status.ParsePlayerLine | app.py:82-83 | A line read as a player row is exactly `<name> - READY` or `<name> - NOT READY` for that row. |
| Status.ParsePlayerLineOfPlayerLine | app.py:82-83 | Every player line reads back as the display name and flag it was built from. READY and NOT READY lines cannot be confused, whatever the name. |
| Status.ParseCountTextOfCountText | app.py:76 | The headcount line reads back as the number it shows. |
| Status.ParseRowsOfPlayerLines | app.py:79-85 | The player lines read back as one row per view entry, in view order. |
| Status.ContentLines | app.py:68-86 | The message is the newline-join of these lines: title, blank, headcount, react hint, blank, yaml fence, `Players:`, the player lines (one empty line if there are none), closing fence. |
| Status.DecodeContentOfContent | app.py:68-86 | If no display name contains a newline, reading the rendered text gives the view's size as the headcount and one row per view entry, in order, with its flag. |
| Lobby.Initial | app.py:13-22 | The globals' starting values: no monitor channel, no text channel, an empty `lobby_users` and no message id. Its contract states exactly that: not configured, empty roster, no truthy id. |
| Lobby.Configured | app.py:66 | The test `if channels['text'] and channels['monitor']:`: both channels set. It has no contract of its own; `Lobby.Render` states its effect (nothing is done unless it holds). |
| Lobby.HasMessage | app.py:87 | The truthiness test `if lobby_message_id:` (also app.py:146): present and not 0. It has no contract of its own; `Lobby.Render` and `Lobby.OnReady` state its effect. |
| Lobby.Render | app.py:65-99 | If either channel is unset, nothing changes and nothing is done. Otherwise the message id is present afterwards, and the roster and channels are never changed. The message cases are: a known id whose message is found is kept and edited; a known id whose message is missing is replaced by the id of a newly sent message; no id means a message is sent; id 0 means nothing is done. An edited or sent text is built from the roster restricted to the live members. |
| Lobby.View | app.py:71-73 | `current_lobby_users`, the roster filtered to the members now in the voice channel. It has no contract of its own; it is `Roster.Restrict` applied to the state, and `Roster.Restrict`'s contract gives it meaning. |
| Lobby.RenderShowsLiveRoster | app.py:71-86 | If the shown players' display names are one line each, the text a render writes reads back as the number of roster keys that are live members, then their rows in roster order. |
| Lobby.Joins | app.py:40 | The join test: the new channel equals the monitor channel, as plain equality of optional channels. It has no contract of its own; `Lobby.OnVoiceStateUpdate` states its effect. |
| Lobby.Leaves | app.py:45 | The leave test: the old channel is the monitor channel and the new one is not. It has no contract of its own; `Lobby.OnVoiceStateUpdate` states its effect. |
| Lobby.OnVoiceStateUpdate | app.py:39-63 | Join (new channel equals the monitor channel): the user maps to not ready, in place or appended, and the rest is unchanged. Leave (old channel is the monitor channel, new one is not): the user's entry is cut out, and the rest keeps content and order. Any other event changes nothing and writes nothing. Channels never change. After a join or leave, the handler's result is exactly a render of the changed roster, so any text it writes is built from the roster after the change. With both channels set, a message id is present afterwards. |
| Lobby.SetReady | app.py:120-122 | Setting the flag of a roster member keeps the keys and their order, and changes only that member's flag. The re-render that follows is of the updated roster, so the written text shows the new flag. |
| Lobby.InLobbyChannel | app.py:116 | The reaction filter: the reacting user is not this bot, and the message is in the text channel (also app.py:128). It has no contract of its own; `Lobby.OnReactionAdd` and `Lobby.OnReactionRemove` state its effect. |
| Lobby.OnReactionAdd | app.py:113-122 | The ready emoji, from anyone but this bot, in the text channel, marks an existing roster member ready, and the result is a render of the updated roster. Any other reaction leaves the state unchanged and writes nothing. Keys and their order never change. |
| Lobby.OnReactionRemove | app.py:124-136 | The ready emoji from a roster member marks them not ready, and the result is a render of the updated roster. This happens when the reaction passes the this-bot/text-channel filter, or when evaluating the filter raised (the filter is then skipped, app.py:130-131). Any other reaction changes nothing and writes nothing. Keys and their order never change. |
| Lobby.LoadChannels | app.py:29-36 | A missing channel file leaves the channels as they were. A stored file sets both slots. The roster and the message id are untouched. |
| Lobby.LoadMessageId | app.py:105-111 | A missing or unparsable id file yields no id. A parsed integer yields that id. |
| Lobby.OnReady | app.py:138-161 | The roster is unchanged and the channels are as loaded. The loaded message id is kept, and nothing is written, unless the text channel is set, the id is truthy and the message is gone. In that case the result is a render of the loaded state with the id cleared: the id becomes the new message's id when the monitor channel is set (and stays cleared otherwise), and the sent text shows the current live roster. |
| Lobby.SetMonitorChannel | app.py:165-175 | A found channel sets only the monitor slot and replies with its name. If no channel is found, the state is unchanged and the reply is "Channel not found.". |
| Lobby.SetTextChannel | app.py:177-187 | A found channel sets only the text slot and replies with its name. If no channel is found, the state is unchanged and the reply is "Channel not found.". |
| Trace.Handle | app.py:38-187 | Sends each delivered event to its handler (the `@bot.event` and `@bot.command` functions). Commands never re-render, so their action is `Skipped`. It has no contract of its own; `Trace.StepRoster` and `Trace.StepShowsNewRoster` state what handling an event does. |
| Trace.VoiceStepRoster | app.py:40-47 | A voice-state event adds at most its own user to the roster and never makes anyone ready. |
| Trace.StepRoster | app.py:38-187 | Any single event adds at most its voice-event user, and makes ready at most the user of a reaction-add. |
| Trace.StepShowsNewRoster | app.py:39-161 | For every event whose voice-channel members have one-line display names, any text written to the status message reads back as the roster after the event: the number of its keys that are live members, then their rows in roster order. Every handler makes its state change before it re-renders: the roster at app.py:42-43, 47-63, 121-122 and 135-136, and the cleared message id at app.py:154-156. |
| Trace.RosterOnlyFromVoiceEvents | app.py:40-42 | Over any run, a user on the final roster was on the initial roster or had a voice-state event delivered. Reactions, startup and commands never add anyone. |
| Trace.ReadyOnlyFromReactions | app.py:120-121 | Over any run, a user who ends up ready was ready at the start or added a reaction during the run. |
| Trace.JoinIdempotent | app.py:40-42 | Repeating the same join leaves the roster as after the first join: the entry is overwritten, never duplicated. |
| Scenarios.JoinStep | app.py:39-47 | A player joining the configured, empty lobby is listed NOT READY, and a new message showing one player is sent and its id kept. |
| Scenarios.ReactStep | app.py:113-122 | That player's ✅ reaction marks them READY, and the same message is edited to show it. |
| Scenarios.RemoveStep | app.py:124-136 | Removing the reaction after the message was deleted marks the player NOT READY, and a replacement message is sent and its id kept. |
| Scenarios.ReadyUpScenario | app.py:39-136 | A player who joins is shown NOT READY in a newly sent message. After reacting, the player is shown READY in the same message, edited. After the message is deleted, un-reacting sends a new message whose id is kept. |

## Left out

- The Discord client and gateway are left out: `bot.run`, intents, event delivery, the token from the environment, and the `fetch_message`, `send`, `edit`, `add_reaction` and `clear_reactions` calls. Each appears only as the outcome the model branches on (message found or not, new message id).
- The loop in the leave branch that strips the leaving user's ✅ reaction from the status message (app.py:48-61) is left out. It only calls the network and changes neither the roster nor the message id. It catches only `NotFound` and `HTTPException` (app.py:58-61). With no text channel and a truthy message id, app.py:50 raises `AttributeError` and the handler stops before the render at app.py:63. The outcome is the same as in the model: the user is already popped (app.py:47), and with no text channel that render would skip anyway.
- File writes and JSON are left out (`save_channels`, `save_lobby_message_id`, the JSON decoding inside `load_channels`). `LoadChannels` takes the already-resolved channels, and `LoadMessageId` takes the parse outcome of Python's `int()` (missing file, unparsable text, or an integer). A malformed JSON file or a missing key raises an uncaught error in the source; this is not modelled.
- Lookups by name are left out: finding a channel with `discord.utils.get` is the `found` input of the commands. A member's display name is a total function, so the crash when `get_member` returns `None` (app.py:81-83) is not modelled.
- Lobby.Render: a failure of the send at app.py:94, `NotFound` included (a deleted text channel, say), is not modelled. In the model the send always succeeds and yields `env.sentId`, so "a message id is present afterwards" assumes the send succeeds. In the source, a failed send after the reset at app.py:92 raises out of the handler and leaves the id `None`. An HTTP error other than "not found" from fetch or edit is not modelled either: such an error also propagates out of the handler, and the model offers only the found/not-found outcome for them.
- Logging with `print`, and the confirmation messages' delivery, are left out.
- Concurrency is left out: each handler is modelled as atomic. The bot runs every handler as its own task, and handlers interleave at each `await`. For example, two renders that both find no message id can both pass app.py:93 before either stores an id at app.py:95, and then two status messages are sent. Such interleavings are not modelled.
- The team-selection/captain flow is randomised and not present in `app.py`, so it is left out.
- The stray global `Nonelobby_message_id` created at app.py:22 is never read and is not modelled.

=== FILE: lobby.dfy ===
/**
 The lobby state machine of app.py: the two configured channels, the roster,
 and the id of the status message, with one pure transition per event the
 bot handles. Everything the chat platform answers during an event (who is
 in the voice channel, display names, whether a message still exists, the
 id of a newly sent message) is an explicit input.
 */
module Lobby {
  import opened Wrappers
  import opened Roster
  import opened Text
  import opened Status

  type ChannelId = int
  type MessageId = int

  /** The bot's globals: `channels`, `lobby_users` and `lobby_message_id`. */
  datatype State = State(
    monitor: Option<ChannelId>,
    text: Option<ChannelId>,
    roster: Roster,
    messageId: Option<MessageId>)

  /** The state the process starts in. */
  function Initial(): (s: State)
    ensures !Configured(s) && s.roster == [] && !HasMessage(s.messageId)
  {
    State(None, None, [], None)
  }

  /** Both channels are set, so a render does its work. */
  predicate Configured(s: State) {
    s.text.Some? && s.monitor.Some?
  }

  /** Python truthiness of `lobby_message_id`: present and not zero. */
  predicate HasMessage(id: Option<MessageId>) {
    id.Some? && id.value != 0
  }

  /** What fetching the stored status message (and editing it) comes to. */
  datatype Fetch = Found | NotFound

  /** What the platform answers while one event is handled. */
  datatype RenderEnv = RenderEnv(
    members: seq<UserId>,        // ids of the members now in the monitored channel
    name: UserId -> string,      // display names
    fetch: Fetch,                // fate of fetching the stored message
    sentId: MessageId)           // id of a message sent during this event

  /** What a render does to the chat. */
  datatype Action = Skipped | Edited(id: MessageId, content: string) | Sent(content: string)

  datatype Rendered = Rendered(state: State, action: Action)

  /** The view a render shows: the roster restricted to live members. */
  function View(s: State, env: RenderEnv): Roster {
    Restrict(s.roster, env.members)
  }

  /**
   `update_lobby_status`: with both channels set, build the text from the
   roster restricted to the live members; edit the stored message if it is
   still there, otherwise forget it and send a new one.
   */
  function Render(s: State, env: RenderEnv): (r: Rendered)
    ensures r.state.roster == s.roster && r.state.monitor == s.monitor && r.state.text == s.text
    ensures !Configured(s) ==> r == Rendered(s, Skipped)
    ensures Configured(s) ==> r.state.messageId.Some?
    ensures Configured(s) && HasMessage(s.messageId) && env.fetch == Found
            ==> r.state == s && r.action.Edited? && r.action.id == s.messageId.value
    ensures Configured(s) && (s.messageId.None? || (HasMessage(s.messageId) && env.fetch == NotFound))
            ==> r.state.messageId == Some(env.sentId) && r.action.Sent?
    ensures s.messageId == Some(0) ==> r == Rendered(s, Skipped)
    ensures !r.action.Skipped? ==> r.action.content == Content(View(s, env), env.name)
  {
    if !Configured(s) then Rendered(s, Skipped)
    else
      var content := Content(Restrict(s.roster, env.members), env.name);
      var id := if HasMessage(s.messageId) && env.fetch == NotFound then None else s.messageId;
      if id.None? then Rendered(s.(messageId := Some(env.sentId)), Sent(content))
      else if HasMessage(id) then Rendered(s.(messageId := id), Edited(id.value, content))
      else Rendered(s.(messageId := id), Skipped)
  }

  /**
   Whatever a render writes reads back as the number of roster keys that
   are live members, followed by one row per such key, in roster order.
   */
  lemma RenderShowsLiveRoster(s: State, env: RenderEnv)
    requires ShownNamesOneLine(View(s, env), env)
    requires !Render(s, env).action.Skipped?
    ensures DecodeContent(Render(s, env).action.content)
         == Some(Shown(|LiveKeys(s.roster, env.members)|, Rows(View(s, env), env.name)))
  {
    var v := View(s, env);
    assert forall i :: 0 <= i < |v| ==> NoNewline(env.name(v[i].id));
    DecodeContentOfContent(v, env.name);
  }

  /** Every member now in the voice channel has a one-line display name. */
  predicate MemberNamesOneLine(env: RenderEnv) {
    forall i :: 0 <= i < |env.members| ==> NoNewline(env.name(env.members[i]))
  }

  /** Only members now in the voice channel are shown, so their names are the ones on screen. */
  lemma MembersCoverView(r: Roster, env: RenderEnv)
    requires MemberNamesOneLine(env)
    ensures ShownNamesOneLine(Restrict(r, env.members), env)
  {
    var v := Restrict(r, env.members);
    forall i | 0 <= i < |v|
      ensures NoNewline(env.name(v[i].id))
    {
      assert v[i] in v;
      assert v[i].id in ToMap(v);
      assert v[i].id in LiveKeys(r, env.members);
    }
  }

  /** Every player shown has a one-line display name. */
  predicate ShownNamesOneLine(view: seq<Entry>, env: RenderEnv) {
    forall i :: 0 <= i < |view| ==> NoNewline(env.name(view[i].id))
  }

  /** A voice-state change: the member's channel before and after. */
  datatype VoiceEvent = VoiceEvent(user: UserId, before: Option<ChannelId>, after: Option<ChannelId>)

  /** The member is (now) in the monitored channel; plain equality of optional channels. */
  predicate Joins(s: State, e: VoiceEvent) {
    e.after == s.monitor
  }

  /** The member was in the monitored channel and is not any more. */
  predicate Leaves(s: State, e: VoiceEvent) {
    e.before == s.monitor && e.after != s.monitor
  }

  /**
   `on_voice_state_update`: a join sets the member to not ready, in place
   if already present and at the end otherwise; a leave removes the member.
   The two branches never both apply, and every other entry is kept.
   */
  function OnVoiceStateUpdate(s: State, e: VoiceEvent, env: RenderEnv): (r: Rendered)
    ensures r.state.monitor == s.monitor && r.state.text == s.text
    ensures Joins(s, e) ==> ToMap(r.state.roster) == ToMap(s.roster)[e.user := false]
    ensures Joins(s, e) && e.user in ToMap(s.roster)
            ==> r.state.roster == s.roster[IndexOf(s.roster, e.user) := Entry(e.user, false)]
    ensures Joins(s, e) && e.user !in ToMap(s.roster) ==> r.state.roster == s.roster + [Entry(e.user, false)]
    ensures Leaves(s, e) ==> ToMap(r.state.roster) == ToMap(s.roster) - {e.user}
    ensures Leaves(s, e) && e.user in ToMap(s.roster)
            ==> r.state.roster == s.roster[..IndexOf(s.roster, e.user)] + s.roster[IndexOf(s.roster, e.user) + 1..]
    ensures Leaves(s, e) && e.user !in ToMap(s.roster) ==> r.state.roster == s.roster
    ensures !Joins(s, e) && !Leaves(s, e) ==> r == Rendered(s, Skipped)
    ensures (Joins(s, e) || Leaves(s, e)) && Configured(s) ==> r.state.messageId.Some?
    ensures Joins(s, e) || Leaves(s, e) ==> r == Render(s.(roster := r.state.roster), env)
    ensures !r.action.Skipped? ==> r.action.content == Content(Restrict(r.state.roster, env.members), env.name)
  {
    var r1 := if e.after == s.monitor then Render(s.(roster := Assign(s.roster, e.user, false)), env)
              else Rendered(s, Skipped);
    var s1 := r1.state;
    if e.before == s1.monitor && e.after != s1.monitor then
      Render(s1.(roster := Pop(s1.roster, e.user)), env)
    else r1
  }

  /**
   A reaction on some message: who, in which channel, with which emoji.
   `bySelf` holds when the reacting user is this bot itself; reactions of
   other bot accounts pass the filter like anyone's.
   */
  datatype ReactionEvent = ReactionEvent(user: UserId, bySelf: bool, channel: ChannelId, emoji: string)

  /** Not this bot's own reaction, and on a message in the text channel. */
  predicate InLobbyChannel(s: State, e: ReactionEvent) {
    !e.bySelf && Some(e.channel) == s.text
  }

  /** Same keys in the same order; only flags may differ. */
  predicate SameKeys(a: seq<Entry>, b: seq<Entry>) {
    |a| == |b| && forall i :: 0 <= i < |a| ==> a[i].id == b[i].id
  }

  /** Sets the ready flag of a roster member and re-renders; anyone else is ignored. */
  function SetReady(s: State, u: UserId, ready: bool, env: RenderEnv): (r: Rendered)
    requires u in ToMap(s.roster)
    ensures r.state.monitor == s.monitor && r.state.text == s.text
    ensures SameKeys(r.state.roster, s.roster)
    ensures ToMap(r.state.roster) == ToMap(s.roster)[u := ready]
    ensures r == Render(s.(roster := r.state.roster), env)
    ensures !r.action.Skipped? ==> r.action.content == Content(Restrict(r.state.roster, env.members), env.name)
  {
    Render(s.(roster := Assign(s.roster, u, ready)), env)
  }

  /**
   `on_reaction_add`: the ready emoji from anyone but this bot in the text
   channel marks a roster member ready. Nobody is ever added.
   */
  function OnReactionAdd(s: State, e: ReactionEvent, env: RenderEnv): (r: Rendered)
    ensures r.state.monitor == s.monitor && r.state.text == s.text
    ensures SameKeys(r.state.roster, s.roster)
    ensures InLobbyChannel(s, e) && e.emoji == ReadyEmoji && e.user in ToMap(s.roster)
            ==> ToMap(r.state.roster) == ToMap(s.roster)[e.user := true]
    ensures !(InLobbyChannel(s, e) && e.emoji == ReadyEmoji && e.user in ToMap(s.roster)) ==> r == Rendered(s, Skipped)
    ensures InLobbyChannel(s, e) && e.emoji == ReadyEmoji && e.user in ToMap(s.roster)
            ==> r == Render(s.(roster := r.state.roster), env)
    ensures !r.action.Skipped? ==> r.action.content == Content(Restrict(r.state.roster, env.members), env.name)
  {
    if e.bySelf || Some(e.channel) != s.text then Rendered(s, Skipped)
    else if e.emoji == ReadyEmoji && e.user in ToMap(s.roster) then SetReady(s, e.user, true, env)
    else Rendered(s, Skipped)
  }

  /**
   `on_reaction_remove`: the ready emoji marks a roster member not ready.
   When inspecting the reaction raised (`guardRaised`), the exception is
   swallowed and the bot/channel filter is skipped.
   */
  function OnReactionRemove(s: State, e: ReactionEvent, guardRaised: bool, env: RenderEnv): (r: Rendered)
    ensures r.state.monitor == s.monitor && r.state.text == s.text
    ensures SameKeys(r.state.roster, s.roster)
    ensures (guardRaised || InLobbyChannel(s, e)) && e.emoji == ReadyEmoji && e.user in ToMap(s.roster)
            ==> ToMap(r.state.roster) == ToMap(s.roster)[e.user := false]
    ensures !((guardRaised || InLobbyChannel(s, e)) && e.emoji == ReadyEmoji && e.user in ToMap(s.roster))
            ==> r == Rendered(s, Skipped)
    ensures (guardRaised || InLobbyChannel(s, e)) && e.emoji == ReadyEmoji && e.user in ToMap(s.roster)
            ==> r == Render(s.(roster := r.state.roster), env)
    ensures !r.action.Skipped? ==> r.action.content == Content(Restrict(r.state.roster, env.members), env.name)
  {
    if !guardRaised && (e.bySelf || Some(e.channel) != s.text) then Rendered(s, Skipped)
    else if e.emoji == ReadyEmoji && e.user in ToMap(s.roster) then SetReady(s, e.user, false, env)
    else Rendered(s, Skipped)
  }

  /** The channel file at startup, each id already resolved to a channel or not. */
  datatype ChannelsFile = NoChannelsFile | ChannelsStored(monitor: Option<ChannelId>, text: Option<ChannelId>)

  /** `load_channels`: a missing file leaves the channels as they were. */
  function LoadChannels(s: State, f: ChannelsFile): (r: State)
    ensures r.roster == s.roster && r.messageId == s.messageId
    ensures f.NoChannelsFile? ==> r == s
    ensures f.ChannelsStored? ==> r.monitor == f.monitor && r.text == f.text
  {
    match f
    case NoChannelsFile => s
    case ChannelsStored(m, t) => s.(monitor := m, text := t)
  }

  /** The message-id file at startup: missing, not an integer, or an integer. */
  datatype IdFile = NoIdFile | Unparsable | Parsed(id: int)

  /** `load_lobby_message_id`: a missing or unparsable file yields no id. */
  function LoadMessageId(f: IdFile): (id: Option<MessageId>)
    ensures id.Some? <==> f.Parsed?
    ensures f.Parsed? ==> id.value == f.id
  {
    match f
    case Parsed(n) => Some(n)
    case _ => None
  }

  /** What fetching the stored message at startup comes to. */
  datatype StartupFetch = Fetched | Gone | HttpError

  /**
   `on_ready`: load the channels and the message id; with a text channel and
   a stored id whose message is gone, forget the id and render afresh.
   */
  function OnReady(s: State, chans: ChannelsFile, idFile: IdFile, fetch: StartupFetch, env: RenderEnv): (r: Rendered)
    ensures r.state.roster == s.roster
    ensures r.state.monitor == LoadChannels(s, chans).monitor && r.state.text == LoadChannels(s, chans).text
    ensures !(r.state.text.Some? && HasMessage(LoadMessageId(idFile)) && fetch == Gone)
            ==> r.state.messageId == LoadMessageId(idFile)
    ensures r.state.text.Some? && HasMessage(LoadMessageId(idFile)) && fetch == Gone
            ==> r.state.messageId == (if r.state.monitor.Some? then Some(env.sentId) else None)
    ensures !(r.state.text.Some? && HasMessage(LoadMessageId(idFile)) && fetch == Gone) ==> r.action == Skipped
    ensures r.state.text.Some? && HasMessage(LoadMessageId(idFile)) && fetch == Gone
            ==> r == Render(LoadChannels(s, chans).(messageId := None), env)
    ensures !r.action.Skipped? ==> r.action.content == Content(Restrict(r.state.roster, env.members), env.name)
  {
    var s1 := LoadChannels(s, chans).(messageId := LoadMessageId(idFile));
    if s1.text.Some? && HasMessage(s1.messageId) then
      match fetch
      case Fetched => Rendered(s1, Skipped)
      case Gone => Render(s1.(messageId := None), env)
      case HttpError => Rendered(s1, Skipped)
    else Rendered(s1, Skipped)
  }

  /** A channel of the guild, as found by name. */
  datatype Channel = Channel(id: ChannelId, name: string)

  /** A command's effect and the bot's reply. */
  datatype Reply = Reply(state: State, text: string)

  /** `!cs_mon_channel <name>`: set the monitored channel if one of that name was found. */
  function SetMonitorChannel(s: State, found: Option<Channel>): (r: Reply)
    ensures r.state.text == s.text && r.state.roster == s.roster && r.state.messageId == s.messageId
    ensures found.Some? ==> (r.state.monitor == Some(found.value.id)
                             && r.text == "CS monitoring channel set to: " + found.value.name)
    ensures found.None? ==> r.state == s && r.text == "Channel not found."
  {
    match found
    case Some(c) => Reply(s.(monitor := Some(c.id)), "CS monitoring channel set to: " + c.name)
    case None => Reply(s, "Channel not found.")
  }

  /** `!cs_text_channel <name>`: set the text channel if one of that name was found. */
  function SetTextChannel(s: State, found: Option<Channel>): (r: Reply)
    ensures r.state.monitor == s.monitor && r.state.roster == s.roster && r.state.messageId == s.messageId
    ensures found.Some? ==> (r.state.text == Some(found.value.id)
                             && r.text == "CS text channel set to: " + found.value.name)
    ensures found.None? ==> r.state == s && r.text == "Channel not found."
  {
    match found
    case Some(c) => Reply(s.(text := Some(c.id)), "CS text channel set to: " + c.name)
    case None => Reply(s, "Channel not found.")
  }
}

=== FILE: roster.dfy ===
/**
 The lobby roster (`lobby_users` in app.py): a Python dict from user id to the
 ready flag. A dict remembers insertion order, so the roster is an ordered
 sequence of entries whose ids are pairwise distinct. `ToMap` forgets the
 order and is the reference meaning of the dict's contents; `IndexOf` gives
 the position of a key.
 */
module Roster {

  type UserId = int

  datatype Entry = Entry(id: UserId, ready: bool)

  /** No key occurs twice: the first entry's key is not among the rest, and so on. */
  predicate UniqueIds(r: seq<Entry>) {
    |r| == 0 || (r[0].id !in ToMap(r[1..]) && UniqueIds(r[1..]))
  }

  /** A dict's entries: no key twice. */
  type Roster = r: seq<Entry> | UniqueIds(r)

  /** The dict's contents without their order. The first entry for a key wins. */
  function ToMap(r: seq<Entry>): (m: map<UserId, bool>)
    ensures m.Keys == set e | e in r :: e.id
  {
    if |r| == 0 then map[]
    else
      var m := ToMap(r[1..])[r[0].id := r[0].ready];
      assert forall e :: e in r <==> e == r[0] || e in r[1..];
      m
  }

  /** Position of a key in the dict's iteration order. */
  function IndexOf(r: seq<Entry>, u: UserId): (i: nat)
    requires u in ToMap(r)
    ensures i < |r| && r[i].id == u
    ensures forall j :: 0 <= j < i ==> r[j].id != u
    ensures ToMap(r)[u] == r[i].ready
  {
    if r[0].id == u then 0
    else
      assert u in ToMap(r[1..]);
      1 + IndexOf(r[1..], u)
  }

  lemma HeadNotInTail(r: Roster)
    requires |r| > 0
    ensures r[0].id !in ToMap(r[1..])
  {
  }

  lemma ConsUnique(e: Entry, t: Roster)
    requires e.id !in ToMap(t)
    ensures UniqueIds([e] + t)
  {
    assert ([e] + t)[1..] == t;
  }

  /** A dict has as many keys as entries. */
  lemma {:induction false} ToMapSize(r: Roster)
    ensures |ToMap(r)| == |r|
  {
    if |r| > 0 {
      HeadNotInTail(r);
      ToMapSize(r[1..]);
    }
  }

  lemma ToMapCons(e: Entry, t: seq<Entry>)
    ensures ToMap([e] + t) == ToMap(t)[e.id := e.ready]
  {
    assert ([e] + t)[1..] == t;
  }

  lemma UpdateCommute(m: map<UserId, bool>, a: UserId, x: bool, b: UserId, y: bool)
    requires a != b
    ensures m[a := x][b := y] == m[b := y][a := x]
  {
  }

  lemma UpdateTwice(m: map<UserId, bool>, a: UserId, x: bool, y: bool)
    ensures m[a := x][a := y] == m[a := y]
  {
  }

  lemma RemoveCommute(m: map<UserId, bool>, a: UserId, x: bool, b: UserId)
    requires a != b
    ensures (m - {b})[a := x] == m[a := x] - {b}
  {
  }

  lemma AssignStepMap(r: Roster, u: UserId, v: bool, t: Roster)
    requires |r| > 0 && r[0].id != u
    requires ToMap(t) == ToMap(r[1..])[u := v]
    ensures ToMap([r[0]] + t) == ToMap(r)[u := v]
  {
    ToMapCons(r[0], t);
    UpdateCommute(ToMap(r[1..]), u, v, r[0].id, r[0].ready);
  }

  lemma UpdateShift(r: seq<Entry>, k: nat, e: Entry)
    requires k + 1 < |r|
    ensures [r[0]] + r[1..][k := e] == r[k + 1 := e]
  {
  }

  lemma AssignStepFound(r: Roster, u: UserId, v: bool, t: Roster)
    requires |r| > 0 && r[0].id != u && u in ToMap(r[1..])
    requires t == r[1..][IndexOf(r[1..], u) := Entry(u, v)]
    ensures u in ToMap(r) && [r[0]] + t == r[IndexOf(r, u) := Entry(u, v)]
  {
    ToMapCons(r[0], r[1..]);
    assert r == [r[0]] + r[1..];
    UpdateShift(r, IndexOf(r[1..], u), Entry(u, v));
  }

  lemma AssignStepNew(r: Roster, u: UserId, v: bool, t: Roster)
    requires |r| > 0 && r[0].id != u && u !in ToMap(r[1..])
    requires t == r[1..] + [Entry(u, v)]
    ensures u !in ToMap(r) && [r[0]] + t == r + [Entry(u, v)]
  {
    ToMapCons(r[0], r[1..]);
    assert r == [r[0]] + r[1..];
  }

  lemma AssignHead(r: Roster, u: UserId, v: bool)
    requires |r| > 0 && r[0].id == u
    ensures UniqueIds([Entry(u, v)] + r[1..])
    ensures ToMap([Entry(u, v)] + r[1..]) == ToMap(r)[u := v]
    ensures u in ToMap(r) && [Entry(u, v)] + r[1..] == r[IndexOf(r, u) := Entry(u, v)]
  {
    HeadNotInTail(r);
    ConsUnique(Entry(u, v), r[1..]);
    ToMapCons(Entry(u, v), r[1..]);
    ToMapCons(r[0], r[1..]);
    assert r == [r[0]] + r[1..];
    UpdateTwice(ToMap(r[1..]), u, r[0].ready, v);
    assert IndexOf(r, u) == 0;
  }

  /**
   `roster[u] = v`: an existing key is overwritten in place, a new key goes
   to the end; every other key keeps its flag.
   */
  function Assign(r: Roster, u: UserId, v: bool): (after: Roster)
    ensures ToMap(after) == ToMap(r)[u := v]
    ensures u in ToMap(r) ==> after == r[IndexOf(r, u) := Entry(u, v)]
    ensures u !in ToMap(r) ==> after == r + [Entry(u, v)]
  {
    if |r| == 0 then
      ConsUnique(Entry(u, v), r);
      [Entry(u, v)] + r
    else if r[0].id == u then
      AssignHead(r, u, v);
      [Entry(u, v)] + r[1..]
    else
      var t := Assign(r[1..], u, v);
      HeadNotInTail(r);
      ConsUnique(r[0], t);
      AssignStepMap(r, u, v, t);
      if u in ToMap(r[1..]) then
        AssignStepFound(r, u, v, t);
        [r[0]] + t
      else
        AssignStepNew(r, u, v, t);
        [r[0]] + t
  }

  lemma PopStepMap(r: Roster, u: UserId, t: Roster)
    requires |r| > 0 && r[0].id != u
    requires ToMap(t) == ToMap(r[1..]) - {u}
    ensures ToMap([r[0]] + t) == ToMap(r) - {u}
  {
    ToMapCons(r[0], t);
    RemoveCommute(ToMap(r[1..]), r[0].id, r[0].ready, u);
  }

  lemma PopStepFound(r: Roster, u: UserId, t: Roster)
    requires |r| > 0 && r[0].id != u && u in ToMap(r[1..])
    requires t == r[1..][..IndexOf(r[1..], u)] + r[1..][IndexOf(r[1..], u) + 1..]
    ensures u in ToMap(r) && [r[0]] + t == r[..IndexOf(r, u)] + r[IndexOf(r, u) + 1..]
  {
    ToMapCons(r[0], r[1..]);
    assert r == [r[0]] + r[1..];
    CutShift(r, IndexOf(r[1..], u));
  }

  lemma PopStepAbsent(r: Roster, u: UserId, t: Roster)
    requires |r| > 0 && r[0].id != u && u !in ToMap(r[1..])
    requires t == r[1..]
    ensures u !in ToMap(r) && [r[0]] + t == r
  {
    ToMapCons(r[0], r[1..]);
    assert r == [r[0]] + r[1..];
  }

  /** Assigning the same value twice is the same as assigning it once. */
  lemma AssignTwice(r: Roster, u: UserId, v: bool)
    ensures Assign(Assign(r, u, v), u, v) == Assign(r, u, v)
  {
    var r1 := Assign(r, u, v);
    var k := IndexOf(r1, u);
    assert r1[k] == Entry(u, v);
    assert r1[k := Entry(u, v)] == r1;
  }

  lemma PopHead(r: Roster, u: UserId)
    requires |r| > 0 && r[0].id == u
    ensures ToMap(r[1..]) == ToMap(r) - {u}
    ensures u in ToMap(r) && IndexOf(r, u) == 0
  {
    HeadNotInTail(r);
    ToMapCons(r[0], r[1..]);
    assert r == [r[0]] + r[1..];
  }

  /**
   `roster.pop(u, None)`: the entry for `u`, if any, is cut out and the
   others stay in their order.
   */
  function Pop(r: Roster, u: UserId): (after: Roster)
    ensures ToMap(after) == ToMap(r) - {u}
    ensures u !in ToMap(r) ==> after == r
    ensures u in ToMap(r) ==> after == r[..IndexOf(r, u)] + r[IndexOf(r, u) + 1..]
  {
    if |r| == 0 then r
    else if r[0].id == u then
      PopHead(r, u);
      r[1..]
    else
      var t := Pop(r[1..], u);
      HeadNotInTail(r);
      ConsUnique(r[0], t);
      PopStepMap(r, u, t);
      if u in ToMap(r[1..]) then
        PopStepFound(r, u, t);
        [r[0]] + t
      else
        PopStepAbsent(r, u, t);
        [r[0]] + t
  }

  lemma CutShift(r: seq<Entry>, k: nat)
    requires k + 1 < |r|
    ensures [r[0]] + (r[1..][..k] + r[1..][k + 1..]) == r[..k + 1] + r[k + 2..]
  {
  }

  /** `a` is `b` with some entries dropped, order kept. */
  predicate Subsequence<T(==)>(a: seq<T>, b: seq<T>)
    decreases |b|
  {
    if |a| == 0 then true
    else if |b| == 0 then false
    else (a[0] == b[0] && Subsequence(a[1..], b[1..])) || Subsequence(a, b[1..])
  }

  /** The keys of the roster that are live members. */
  function LiveKeys(r: seq<Entry>, live: seq<UserId>): set<UserId>
  {
    set x | x in ToMap(r) && x in live
  }

  /** The live part of a roster, as an order-free map. */
  function LiveMap(r: seq<Entry>, live: seq<UserId>): map<UserId, bool> {
    map x | x in LiveKeys(r, live) :: ToMap(r)[x]
  }

  lemma LiveMapCons(r: Roster, live: seq<UserId>)
    requires |r| > 0
    ensures r[0].id in live ==> LiveMap(r, live) == LiveMap(r[1..], live)[r[0].id := r[0].ready]
    ensures r[0].id !in live ==> LiveMap(r, live) == LiveMap(r[1..], live)
  {
    var m := ToMap(r);
    var m1 := ToMap(r[1..]);
    ToMapCons(r[0], r[1..]);
    assert r == [r[0]] + r[1..];
    assert m == m1[r[0].id := r[0].ready];
    if r[0].id in live {
      assert LiveKeys(r, live) == LiveKeys(r[1..], live) + {r[0].id};
    } else {
      assert LiveKeys(r, live) == LiveKeys(r[1..], live);
    }
  }

  lemma RestrictKeep(r: Roster, live: seq<UserId>, t: Roster)
    requires |r| > 0 && r[0].id in live
    requires ToMap(t) == LiveMap(r[1..], live) && Subsequence(t, r[1..])
    ensures UniqueIds([r[0]] + t)
    ensures ToMap([r[0]] + t) == LiveMap(r, live)
    ensures Subsequence([r[0]] + t, r)
  {
    HeadNotInTail(r);
    ConsUnique(r[0], t);
    ToMapCons(r[0], t);
    LiveMapCons(r, live);
    assert ([r[0]] + t)[1..] == t;
  }

  lemma RestrictDrop(r: Roster, live: seq<UserId>, t: Roster)
    requires |r| > 0 && r[0].id !in live
    requires ToMap(t) == LiveMap(r[1..], live) && Subsequence(t, r[1..])
    ensures ToMap(t) == LiveMap(r, live)
    ensures Subsequence(t, r)
  {
    LiveMapCons(r, live);
  }

  /** A roster holding exactly the live part has one entry per live key. */
  lemma LiveSize(r: Roster, live: seq<UserId>, v: Roster)
    requires ToMap(v) == LiveMap(r, live)
    ensures |v| == |LiveKeys(r, live)|
  {
    ToMapSize(v);
    assert ToMap(v).Keys == LiveKeys(r, live);
  }

  /**
   The dict comprehension `{k: v for k, v in roster.items() if k in live}`:
   the entries whose key is a live member, in roster order.
   */
  function Restrict(r: Roster, live: seq<UserId>): (v: Roster)
    ensures ToMap(v) == LiveMap(r, live)
    ensures Subsequence(v, r)
    ensures |v| == |LiveKeys(r, live)|
  {
    if |r| == 0 then
      assert LiveKeys(r, live) == {};
      r
    else
      var t := Restrict(r[1..], live);
      if r[0].id in live then
        RestrictKeep(r, live, t);
        LiveSize(r, live, [r[0]] + t);
        [r[0]] + t
      else
        RestrictDrop(r, live, t);
        LiveSize(r, live, t);
        t
  }
}

=== FILE: scenarios.dfy ===
/**
 A worked run of the lobby: one player joins, readies up, the status message
 is deleted by someone, and the player un-readies.
 */
module Scenarios {
  import opened Wrappers
  import opened Roster
  import opened Text
  import opened Status
  import opened Lobby

  const Voice: ChannelId := 1
  const TextChannel: ChannelId := 2
  const Alice: UserId := 10

  function Names(u: UserId): string {
    "Alice"
  }

  /** The configured lobby before anyone joins. */
  function Start(): (s: State)
    ensures Configured(s) && s.roster == [] && s.messageId == None
  {
    Initial().(monitor := Some(Voice), text := Some(TextChannel))
  }

  /** Alice joins the empty lobby: she is listed NOT READY in a newly sent message. */
  lemma JoinStep(env: RenderEnv)
    requires env == RenderEnv([Alice], Names, Found, 500)
    ensures
      var r := OnVoiceStateUpdate(Start(), VoiceEvent(Alice, None, Some(Voice)), env);
      && r.state.roster == [Entry(Alice, false)]
      && r.state.messageId == Some(500)
      && r.action.Sent?
      && DecodeContent(r.action.content) == Some(Shown(1, [Row("Alice", false)]))
  {
    var s0 := Start();
    var pre := s0.(roster := Assign(s0.roster, Alice, false));
    assert pre.roster == [Entry(Alice, false)];
    assert OnVoiceStateUpdate(s0, VoiceEvent(Alice, None, Some(Voice)), env) == Render(pre, env);
    RenderShows(pre, env, false);
  }

  /** Alice reacts while her message is still there: she is listed READY and the message is edited. */
  lemma ReactStep(s: State, env: RenderEnv)
    requires s == Start().(roster := [Entry(Alice, false)], messageId := Some(500))
    requires env == RenderEnv([Alice], Names, Found, 500)
    ensures
      var r := OnReactionAdd(s, ReactionEvent(Alice, false, TextChannel, ReadyEmoji), env);
      && r.state.roster == [Entry(Alice, true)]
      && r.state.messageId == Some(500)
      && r.action.Edited? && r.action.id == 500
      && DecodeContent(r.action.content) == Some(Shown(1, [Row("Alice", true)]))
  {
    var pre := s.(roster := Assign(s.roster, Alice, true));
    assert pre.roster == [Entry(Alice, true)];
    RenderShows(pre, env, true);
  }

  /** Alice un-reacts after the message was deleted: she is listed NOT READY in a new message whose id is kept. */
  lemma RemoveStep(s: State, env: RenderEnv)
    requires s == Start().(roster := [Entry(Alice, true)], messageId := Some(500))
    requires env == RenderEnv([Alice], Names, NotFound, 600)
    ensures
      var r := OnReactionRemove(s, ReactionEvent(Alice, false, TextChannel, ReadyEmoji), false, env);
      && r.state.roster == [Entry(Alice, false)]
      && r.state.messageId == Some(600)
      && r.action.Sent?
      && DecodeContent(r.action.content) == Some(Shown(1, [Row("Alice", false)]))
  {
    var pre := s.(roster := Assign(s.roster, Alice, false));
    assert pre.roster == [Entry(Alice, false)];
    RenderShows(pre, env, false);
  }

  /**
   Alice joins: she is listed NOT READY and a message is sent. She reacts:
   she is listed READY and the same message is edited. The message is then
   deleted; her un-react finds it gone, so a new message is sent and its id
   kept.
   */
  lemma ReadyUpScenario()
    ensures
      var env1 := RenderEnv([Alice], Names, Found, 500);
      var r1 := OnVoiceStateUpdate(Start(), VoiceEvent(Alice, None, Some(Voice)), env1);
      var r2 := OnReactionAdd(r1.state, ReactionEvent(Alice, false, TextChannel, ReadyEmoji), env1);
      var env3 := RenderEnv([Alice], Names, NotFound, 600);
      var r3 := OnReactionRemove(r2.state, ReactionEvent(Alice, false, TextChannel, ReadyEmoji), false, env3);
      && r1.state.roster == [Entry(Alice, false)]
      && r1.state.messageId == Some(500)
      && r1.action.Sent?
      && DecodeContent(r1.action.content) == Some(Shown(1, [Row("Alice", false)]))
      && r2.state.roster == [Entry(Alice, true)]
      && r2.state.messageId == Some(500)
      && r2.action.Edited? && r2.action.id == 500
      && DecodeContent(r2.action.content) == Some(Shown(1, [Row("Alice", true)]))
      && r3.state.roster == [Entry(Alice, false)]
      && r3.state.messageId == Some(600)
      && r3.action.Sent?
      && DecodeContent(r3.action.content) == Some(Shown(1, [Row("Alice", false)]))
  {
    var env1 := RenderEnv([Alice], Names, Found, 500);
    var r1 := OnVoiceStateUpdate(Start(), VoiceEvent(Alice, None, Some(Voice)), env1);
    JoinStep(env1);
    var r2 := OnReactionAdd(r1.state, ReactionEvent(Alice, false, TextChannel, ReadyEmoji), env1);
    ReactStep(r1.state, env1);
    RemoveStep(r2.state, RenderEnv([Alice], Names, NotFound, 600));
  }

  /** A render of Alice alone shows one row with her flag. */
  lemma RenderShows(s: State, env: RenderEnv, ready: bool)
    requires s.roster == [Entry(Alice, ready)] && env.members == [Alice] && env.name == Names
    requires !Render(s, env).action.Skipped?
    ensures DecodeContent(Render(s, env).action.content) == Some(Shown(1, [Row("Alice", ready)]))
  {
    var v := View(s, env);
    assert Restrict(s.roster, env.members) == [Entry(Alice, ready)];
    assert Rows(v, Names) == [Row("Alice", ready)];
    assert forall i :: 0 <= i < |v| ==> NoNewline(env.name(v[i].id));
    DecodeContentOfContent(v, env.name);
  }
}

=== FILE: status.dfy ===
/**
 The text of the lobby status message (app.py `update_lobby_status`), and a
 reader that recovers the headcount and the player rows from such a text.
 The reader is the partner of the builder: what is rendered can be read back.
 */
module Status {
  import opened Wrappers
  import opened Text
  import opened Roster

  /** The emoji players react with to ready up. */
  const ReadyEmoji: string := "\U{2705}"

  const Title: string := "**CS2 Lobby Status**"
  const CountSuffix: string := " user(s) in lobby, need at least 6 users**"
  const ReactText: string := "React with " + ReadyEmoji + " below to ready up"
  const ReadySuffix: string := " - READY"
  const NotReadySuffix: string := " - NOT READY"

  /** The headcount line, without its newline. */
  function CountText(n: nat): string {
    "**" + NatToString(n) + CountSuffix
  }

  /** `<display name> - READY` or `<display name> - NOT READY`. */
  function PlayerLine(name: string, ready: bool): string {
    name + (if ready then ReadySuffix else NotReadySuffix)
  }

  /** One line per entry of the view, in the view's order. */
  function PlayerLines(view: seq<Entry>, name: UserId -> string): (lines: seq<string>)
    ensures |lines| == |view|
  {
    seq(|view|, i requires 0 <= i < |view| => PlayerLine(name(view[i].id), view[i].ready))
  }

  /** The message text built from the filtered roster `view`. */
  function Content(view: seq<Entry>, name: UserId -> string): string {
    Title + "\n\n"
    + CountText(|view|) + "\n"
    + ReactText + "\n\n"
    + "```yaml\nPlayers:\n" + Join(PlayerLines(view, name)) + "\n```"
  }

  /** What a reader of the message sees in a player line. */
  datatype Row = Row(name: string, ready: bool)

  /** What a reader of the message sees: the headcount and the player rows. */
  datatype Shown = Shown(count: nat, rows: seq<Row>)

  /** The rows the view is expected to show. */
  function Rows(view: seq<Entry>, name: UserId -> string): (rows: seq<Row>)
    ensures |rows| == |view|
  {
    seq(|view|, i requires 0 <= i < |view| => Row(name(view[i].id), view[i].ready))
  }

  predicate EndsWith(s: string, suffix: string) {
    |suffix| <= |s| && s[|s| - |suffix|..] == suffix
  }

  /** Reads a player line back; `None` when it has neither status suffix. */
  function ParsePlayerLine(l: string): (row: Option<Row>)
    ensures row.Some? ==> PlayerLine(row.value.name, row.value.ready) == l
  {
    if EndsWith(l, ReadySuffix) then
      assert l == l[..|l| - |ReadySuffix|] + ReadySuffix;
      Some(Row(l[..|l| - |ReadySuffix|], true))
    else if EndsWith(l, NotReadySuffix) then
      assert l == l[..|l| - |NotReadySuffix|] + NotReadySuffix;
      Some(Row(l[..|l| - |NotReadySuffix|], false))
    else None
  }

  /** Every player line reads back as the name and flag it was built from. */
  lemma ParsePlayerLineOfPlayerLine(name: string, ready: bool)
    ensures ParsePlayerLine(PlayerLine(name, ready)) == Some(Row(name, ready))
  {
    var l := PlayerLine(name, ready);
    if ready {
      assert l[|l| - |ReadySuffix|..] == ReadySuffix;
      assert l[..|l| - |ReadySuffix|] == name;
    } else {
      assert l[|l| - |ReadySuffix|] == 'O';
      assert l[|l| - |NotReadySuffix|..] == NotReadySuffix;
      assert l[..|l| - |NotReadySuffix|] == name;
    }
  }

  /** Reads a headcount line back. */
  function ParseCountText(l: string): (n: Option<nat>)
  {
    if |l| < 2 + |CountSuffix| || l[..2] != "**" || !EndsWith(l, CountSuffix) then None
    else
      var digits := l[2..|l| - |CountSuffix|];
      if |digits| > 0 && AllDigits(digits) then Some(DigitsValue(digits)) else None
  }

  lemma ParseCountTextOfCountText(n: nat)
    ensures ParseCountText(CountText(n)) == Some(n)
  {
    var l := CountText(n);
    assert l[..2] == "**";
    assert l[|l| - |CountSuffix|..] == CountSuffix;
    assert l[2..|l| - |CountSuffix|] == NatToString(n);
    DigitsValueOfNatToString(n);
  }

  /** Reads every line as a player line; `None` if one of them is not. */
  function ParseRows(lines: seq<string>): (rows: Option<seq<Row>>)
    ensures rows.Some? ==> |rows.value| == |lines|
  {
    if |lines| == 0 then Some([])
    else
      match ParsePlayerLine(lines[0])
      case None => None
      case Some(row) =>
        match ParseRows(lines[1..])
        case None => None
        case Some(rest) => Some([row] + rest)
  }

  lemma PlayerLinesCons(view: seq<Entry>, name: UserId -> string)
    requires |view| > 0
    ensures PlayerLines(view, name)
         == [PlayerLine(name(view[0].id), view[0].ready)] + PlayerLines(view[1..], name)
  {
  }

  lemma RowsCons(view: seq<Entry>, name: UserId -> string)
    requires |view| > 0
    ensures Rows(view, name) == [Row(name(view[0].id), view[0].ready)] + Rows(view[1..], name)
  {
  }

  lemma ParseRowsCons(l: string, rest: seq<string>)
    ensures ParseRows([l] + rest)
         == match ParsePlayerLine(l)
            case None => None
            case Some(row) =>
              match ParseRows(rest)
              case None => None
              case Some(rows) => Some([row] + rows)
  {
    assert ([l] + rest)[0] == l;
    assert ([l] + rest)[1..] == rest;
  }

  lemma {:induction false} ParseRowsOfPlayerLines(view: seq<Entry>, name: UserId -> string)
    ensures ParseRows(PlayerLines(view, name)) == Some(Rows(view, name))
    decreases |view|
  {
    if |view| > 0 {
      var l := PlayerLine(name(view[0].id), view[0].ready);
      PlayerLinesCons(view, name);
      RowsCons(view, name);
      ParsePlayerLineOfPlayerLine(name(view[0].id), view[0].ready);
      ParseRowsOfPlayerLines(view[1..], name);
      ParseRowsCons(l, PlayerLines(view[1..], name));
    }
  }

  /** The player block as lines: an empty list still leaves one empty line. */
  function Body(view: seq<Entry>, name: UserId -> string): seq<string> {
    if |view| == 0 then [""] else PlayerLines(view, name)
  }

  /** The seven lines before the player list, with `count` as the headcount line. */
  function Head(count: string): seq<string> {
    [Title, "", count, ReactText, "", "```yaml", "Players:"]
  }

  /** The message split at its newlines. */
  function StatusLines(view: seq<Entry>, name: UserId -> string): seq<string> {
    Head(CountText(|view|)) + Body(view, name) + ["```"]
  }

  /**
   Reads a status message back: the seven fixed lines (the third holding the
   headcount), the player lines, and the closing fence.
   */
  function DecodeContent(c: string): Option<Shown> {
    DecodeLines(Split(c))
  }

  /** Reads the lines of a status message back. */
  function DecodeLines(lines: seq<string>): Option<Shown> {
    if |lines| < 9 || lines[..7] != Head(lines[2]) || lines[|lines| - 1] != "```" then None
    else
      match ParseCountText(lines[2])
      case None => None
      case Some(n) =>
        var body := lines[7..|lines| - 1];
        if body == [""] then Some(Shown(n, []))
        else
          match ParseRows(body)
          case None => None
          case Some(rows) => Some(Shown(n, rows))
  }

  lemma JoinCons(a: string, rest: seq<string>)
    requires |rest| > 0
    ensures Join([a] + rest) == a + "\n" + Join(rest)
  {
    assert ([a] + rest)[1..] == rest;
  }

  lemma JoinFront(t: string, c: string, react: string)
    ensures Join([t, "", c, react]) == t + "\n\n" + (c + "\n" + react)
  {
    JoinCons(c, [react]);
    JoinCons("", [c, react]);
    JoinCons(t, ["", c, react]);
    assert "" + "\n" + (c + "\n" + react) == "\n" + (c + "\n" + react);
    assert t + "\n" + ("\n" + (c + "\n" + react)) == t + "\n\n" + (c + "\n" + react);
  }

  lemma JoinBack(y: string, p: string, rest: string)
    ensures Join(["", y, p, rest]) == "\n" + (y + "\n" + p + "\n" + rest)
  {
    JoinCons(p, [rest]);
    JoinCons(y, [p, rest]);
    JoinCons("", [y, p, rest]);
    assert y + "\n" + (p + "\n" + rest) == y + "\n" + p + "\n" + rest;
  }

  /** The join of the head lines, for any text in them. */
  lemma JoinHeadShape(t: string, c: string, react: string, y: string, p: string, rest: string)
    ensures Join([t, "", c, react] + ["", y, p, rest])
         == t + "\n\n" + (c + "\n" + react) + "\n\n" + (y + "\n" + p + "\n" + rest)
  {
    JoinAppend([t, "", c, react], ["", y, p, rest]);
    JoinFront(t, c, react);
    JoinBack(y, p, rest);
    var front := t + "\n\n" + (c + "\n" + react);
    var fence := y + "\n" + p + "\n" + rest;
    assert front + "\n" + ("\n" + fence) == front + "\n\n" + fence;
  }

  lemma JoinHead(count: string, rest: string)
    ensures Join(Head(count) + [rest])
         == Title + "\n\n" + count + "\n" + ReactText + "\n\n" + "```yaml\nPlayers:\n" + rest
  {
    var y := "```yaml";
    var p := "Players:";
    assert Head(count) + [rest] == [Title, "", count, ReactText] + ["", y, p, rest];
    JoinHeadShape(Title, count, ReactText, y, p, rest);
    assert y + "\n" + p + "\n" == "```yaml\nPlayers:\n";
  }

  /** The message is the newline-join of its lines. */
  lemma ContentLines(view: seq<Entry>, name: UserId -> string)
    ensures Content(view, name) == Join(StatusLines(view, name))
  {
    var body := Body(view, name);
    var tail := Join(body) + "\n```";
    JoinAppend(body, ["```"]);
    assert Join(body + ["```"]) == tail;
    assert Join(body) == Join(PlayerLines(view, name));
    var head := Head(CountText(|view|));
    JoinAppend(head, body + ["```"]);
    JoinAppend(head, [tail]);
    JoinHead(CountText(|view|), tail);
    assert StatusLines(view, name) == head + (body + ["```"]);
  }

  lemma HeadNoNewlines(count: string)
    requires NoNewline(count)
    ensures NoNewlines(Head(count))
  {
    assert NoNewline(Title);
    assert NoNewline(ReactText);
  }

  lemma CountTextNoNewline(n: nat)
    ensures NoNewline(CountText(n))
  {
    var d := NatToString(n);
    assert NoNewline(d) by {
      assert forall i :: 0 <= i < |d| ==> IsDigit(d[i]);
    }
    assert NoNewline(CountSuffix);
  }

  lemma StatusLinesNoNewlines(view: seq<Entry>, name: UserId -> string)
    requires forall i :: 0 <= i < |view| ==> NoNewline(name(view[i].id))
    ensures NoNewlines(StatusLines(view, name))
  {
    CountTextNoNewline(|view|);
    HeadNoNewlines(CountText(|view|));
    forall i | 0 <= i < |view|
      ensures NoNewline(PlayerLines(view, name)[i])
    {
      assert NoNewline(name(view[i].id));
    }
  }

  lemma DecodeLinesOfStatusLines(view: seq<Entry>, name: UserId -> string)
    ensures DecodeLines(StatusLines(view, name)) == Some(Shown(|view|, Rows(view, name)))
  {
    var lines := StatusLines(view, name);
    assert lines[..7] == Head(lines[2]);
    ParseCountTextOfCountText(|view|);
    assert lines[7..|lines| - 1] == Body(view, name);
    if |view| > 0 {
      ParseRowsOfPlayerLines(view, name);
      assert PlayerLines(view, name) != [""];
    }
  }

  /**
   Reading a rendered message gives back the size of the view as the
   headcount and one row per entry of the view, in order, with its flag,
   provided no display name contains a newline.
   */
  lemma DecodeContentOfContent(view: seq<Entry>, name: UserId -> string)
    requires forall i :: 0 <= i < |view| ==> NoNewline(name(view[i].id))
    ensures DecodeContent(Content(view, name)) == Some(Shown(|view|, Rows(view, name)))
  {
    ContentLines(view, name);
    StatusLinesNoNewlines(view, name);
    SplitJoin(StatusLines(view, name));
    DecodeLinesOfStatusLines(view, name);
  }
}

=== FILE: text.dfy ===
/**
 Plain-text helpers the status message is built from: decimal rendering of a
 count (Python's f-string `{n}`), `"\n".join(...)` and its inverse `str.split("\n")`.
 */
module Text {

  predicate IsDigit(c: char) {
    '0' <= c <= '9'
  }

  predicate AllDigits(s: string) {
    forall i :: 0 <= i < |s| ==> IsDigit(s[i])
  }

  function DigitChar(d: nat): (c: char)
    requires d < 10
    ensures IsDigit(c)
  {
    ('0' as int + d) as char
  }

  function DigitValue(c: char): (d: nat)
    requires IsDigit(c)
    ensures d < 10
  {
    c as int - '0' as int
  }

  /** Decimal text of a natural number, as Python's `str(n)` writes it. */
  function NatToString(n: nat): (s: string)
    ensures |s| > 0 && AllDigits(s)
    ensures s[0] == '0' ==> n == 0
    decreases n
  {
    if n < 10 then [DigitChar(n)]
    else NatToString(n / 10) + [DigitChar(n % 10)]
  }

  /** The value of a string of decimal digits (most significant first). */
  function DigitsValue(s: string): nat
    requires AllDigits(s)
  {
    if |s| == 0 then 0
    else DigitsValue(s[..|s| - 1]) * 10 + DigitValue(s[|s| - 1])
  }

  /** Reading back the decimal text of `n` gives `n`. */
  lemma {:induction false} DigitsValueOfNatToString(n: nat)
    ensures DigitsValue(NatToString(n)) == n
    decreases n
  {
    if n >= 10 {
      var s := NatToString(n);
      assert s[..|s| - 1] == NatToString(n / 10);
      DigitsValueOfNatToString(n / 10);
    }
  }

  /** Python's `"\n".join(lines)`: the empty list joins to the empty string. */
  function Join(lines: seq<string>): string
  {
    if |lines| == 0 then ""
    else if |lines| == 1 then lines[0]
    else lines[0] + "\n" + Join(lines[1..])
  }

  /** Python's `s.split("\n")`: always at least one piece. */
  function Split(s: string): (pieces: seq<string>)
    ensures |pieces| > 0
    decreases |s|
  {
    if |s| == 0 then [""]
    else
      var rest := Split(s[1..]);
      if s[0] == '\n' then [""] + rest
      else [[s[0]] + rest[0]] + rest[1..]
  }

  predicate NoNewline(s: string) {
    '\n' !in s
  }

  predicate NoNewlines(lines: seq<string>) {
    forall i :: 0 <= i < |lines| ==> NoNewline(lines[i])
  }

  /** A line with no newline splits to itself. */
  lemma {:induction false} SplitLine(a: string)
    requires NoNewline(a)
    ensures Split(a) == [a]
    decreases |a|
  {
    if |a| > 0 {
      assert NoNewline(a[1..]) by {
        assert forall k :: 0 <= k < |a[1..]| ==> a[1..][k] == a[k + 1];
      }
      SplitLine(a[1..]);
      assert [a[0]] + a[1..] == a;
    }
  }

  /** A newline after a newline-free prefix ends the first piece. */
  lemma {:induction false} SplitAfterLine(a: string, b: string)
    requires NoNewline(a)
    ensures Split(a + "\n" + b) == [a] + Split(b)
    decreases |a|
  {
    if |a| == 0 {
      assert a + "\n" + b == ['\n'] + b;
      assert (['\n'] + b)[1..] == b;
    } else {
      var s := a + "\n" + b;
      assert s[0] == a[0];
      assert s[1..] == a[1..] + "\n" + b;
      assert NoNewline(a[1..]) by {
        assert forall k :: 0 <= k < |a[1..]| ==> a[1..][k] == a[k + 1];
      }
      SplitAfterLine(a[1..], b);
      assert [a[0]] + a[1..] == a;
    }
  }

  /** Joining newline-free lines and splitting the result gives back the lines. */
  lemma {:induction false} SplitJoin(lines: seq<string>)
    requires |lines| > 0 && NoNewlines(lines)
    ensures Split(Join(lines)) == lines
    decreases |lines|
  {
    if |lines| == 1 {
      SplitLine(lines[0]);
    } else {
      SplitAfterLine(lines[0], Join(lines[1..]));
      SplitJoin(lines[1..]);
      assert lines == [lines[0]] + lines[1..];
    }
  }

  /** Joining a concatenation puts one separator between the two joins. */
  lemma {:induction false} JoinAppend(a: seq<string>, b: seq<string>)
    requires |a| > 0 && |b| > 0
    ensures Join(a + b) == Join(a) + "\n" + Join(b)
    decreases |a|
  {
    if |a| == 1 {
      assert (a + b)[1..] == b;
    } else {
      assert (a + b)[1..] == a[1..] + b;
      JoinAppend(a[1..], b);
    }
  }
}

=== FILE: trace.dfy ===
/**
 Runs of the bot: the events the platform delivers, one after another.
 Each handler is modelled as atomic; the bot itself may interleave handlers
 at their awaits, which is not modelled. Lemmas here relate whole runs to
 the events in them.
 */
module Trace {
  import opened Wrappers
  import opened Roster
  import opened Text
  import opened Status
  import opened Lobby

  /** The events the bot handles. */
  datatype Event =
    | VoiceUpdate(voice: VoiceEvent)
    | ReactionAdded(reaction: ReactionEvent)
    | ReactionRemoved(reaction: ReactionEvent, guardRaised: bool)
    | Startup(chans: ChannelsFile, idFile: IdFile, fetch: StartupFetch)
    | MonitorCommand(found: Option<Channel>)
    | TextCommand(found: Option<Channel>)

  /** An event together with the platform's answers while handling it. */
  datatype Delivery = Delivery(event: Event, env: RenderEnv)

  /** Handles one event: the new state and what was done to the status message. */
  function Handle(s: State, d: Delivery): Rendered {
    match d.event
    case VoiceUpdate(v) => OnVoiceStateUpdate(s, v, d.env)
    case ReactionAdded(e) => OnReactionAdd(s, e, d.env)
    case ReactionRemoved(e, g) => OnReactionRemove(s, e, g, d.env)
    case Startup(c, f, x) => OnReady(s, c, f, x, d.env)
    case MonitorCommand(c) => Rendered(SetMonitorChannel(s, c).state, Skipped)
    case TextCommand(c) => Rendered(SetTextChannel(s, c).state, Skipped)
  }

  /** Handles one event. */
  function Step(s: State, d: Delivery): State {
    Handle(s, d).state
  }

  /**
   Whatever an event writes to the status message shows the roster as it is
   after the event: every handler changes the roster before it renders.
   */
  lemma StepShowsNewRoster(s: State, d: Delivery)
    requires MemberNamesOneLine(d.env)
    requires !Handle(s, d).action.Skipped?
    ensures
      var after := Step(s, d).roster;
      DecodeContent(Handle(s, d).action.content)
      == Some(Shown(|LiveKeys(after, d.env.members)|, Rows(Restrict(after, d.env.members), d.env.name)))
  {
    var r := Handle(s, d);
    var v := Restrict(r.state.roster, d.env.members);
    assert r.action.content == Content(v, d.env.name);
    MembersCoverView(r.state.roster, d.env);
    assert forall i :: 0 <= i < |v| ==> NoNewline(d.env.name(v[i].id));
    DecodeContentOfContent(v, d.env.name);
  }

  /** Handles the events in delivery order. */
  function Run(s: State, ds: seq<Delivery>): State
    decreases |ds|
  {
    if |ds| == 0 then s else Run(Step(s, ds[0]), ds[1..])
  }

  /** Some voice-state event of `u` was delivered. */
  predicate VoiceEventOf(ds: seq<Delivery>, u: UserId) {
    exists i :: 0 <= i < |ds| && ds[i].event.VoiceUpdate? && ds[i].event.voice.user == u
  }

  /** Some reaction-add event by `u` was delivered. */
  predicate ReactionAddOf(ds: seq<Delivery>, u: UserId) {
    exists i :: 0 <= i < |ds| && ds[i].event.ReactionAdded? && ds[i].event.reaction.user == u
  }

  /** True when `u` is on the roster and marked ready. */
  predicate IsReady(s: State, u: UserId) {
    u in ToMap(s.roster) && ToMap(s.roster)[u]
  }

  lemma VoiceStepRoster(s: State, v: VoiceEvent, env: RenderEnv, u: UserId)
    ensures u in ToMap(OnVoiceStateUpdate(s, v, env).state.roster) ==> u in ToMap(s.roster) || v.user == u
    ensures IsReady(OnVoiceStateUpdate(s, v, env).state, u) ==> IsReady(s, u)
  {
    var r := OnVoiceStateUpdate(s, v, env).state;
    if Joins(s, v) {
      assert ToMap(r.roster) == ToMap(s.roster)[v.user := false];
    } else if Leaves(s, v) {
      assert ToMap(r.roster) == ToMap(s.roster) - {v.user};
    }
  }

  lemma ReactionAddStepRoster(s: State, e: ReactionEvent, env: RenderEnv, u: UserId)
    ensures u in ToMap(OnReactionAdd(s, e, env).state.roster) ==> u in ToMap(s.roster)
    ensures IsReady(OnReactionAdd(s, e, env).state, u) ==> IsReady(s, u) || e.user == u
  {
  }

  lemma ReactionRemoveStepRoster(s: State, e: ReactionEvent, g: bool, env: RenderEnv, u: UserId)
    ensures u in ToMap(OnReactionRemove(s, e, g, env).state.roster) ==> u in ToMap(s.roster)
    ensures IsReady(OnReactionRemove(s, e, g, env).state, u) ==> IsReady(s, u)
  {
  }

  /** One event adds at most its own voice-event user, and makes only a reacting user ready. */
  lemma StepRoster(s: State, d: Delivery, u: UserId)
    ensures u in ToMap(Step(s, d).roster)
            ==> u in ToMap(s.roster) || (d.event.VoiceUpdate? && d.event.voice.user == u)
    ensures IsReady(Step(s, d), u)
            ==> IsReady(s, u) || (d.event.ReactionAdded? && d.event.reaction.user == u)
  {
    match d.event
    case VoiceUpdate(v) => VoiceStepRoster(s, v, d.env, u);
    case ReactionAdded(e) => ReactionAddStepRoster(s, e, d.env, u);
    case ReactionRemoved(e, g) => ReactionRemoveStepRoster(s, e, g, d.env, u);
    case Startup(c, f, x) =>
    case MonitorCommand(c) =>
    case TextCommand(c) =>
  }

  /**
   Over any run, a user on the final roster was on the first one or had a
   voice-state event delivered; reactions and commands never add anyone.
   */
  lemma {:induction false} RosterOnlyFromVoiceEvents(s: State, ds: seq<Delivery>, u: UserId)
    ensures u in ToMap(Run(s, ds).roster) ==> u in ToMap(s.roster) || VoiceEventOf(ds, u)
    decreases |ds|
  {
    if |ds| > 0 {
      var s1 := Step(s, ds[0]);
      RosterOnlyFromVoiceEvents(s1, ds[1..], u);
      StepRoster(s, ds[0], u);
      if VoiceEventOf(ds[1..], u) {
        var i :| 0 <= i < |ds[1..]| && ds[1..][i].event.VoiceUpdate? && ds[1..][i].event.voice.user == u;
        assert ds[i + 1] == ds[1..][i];
      }
    }
  }

  /**
   Over any run, a user who ends up ready was ready at the start or added a
   reaction during the run; joins, removals and commands never make anyone ready.
   */
  lemma {:induction false} ReadyOnlyFromReactions(s: State, ds: seq<Delivery>, u: UserId)
    ensures IsReady(Run(s, ds), u) ==> IsReady(s, u) || ReactionAddOf(ds, u)
    decreases |ds|
  {
    if |ds| > 0 {
      var s1 := Step(s, ds[0]);
      ReadyOnlyFromReactions(s1, ds[1..], u);
      StepRoster(s, ds[0], u);
      if ReactionAddOf(ds[1..], u) {
        var i :| 0 <= i < |ds[1..]| && ds[1..][i].event.ReactionAdded? && ds[1..][i].event.reaction.user == u;
        assert ds[i + 1] == ds[1..][i];
      }
    }
  }

  /** Repeating a join changes nothing more on the roster: overwrite, never duplicate. */
  lemma JoinIdempotent(s: State, e: VoiceEvent, env1: RenderEnv, env2: RenderEnv)
    requires Joins(s, e)
    ensures OnVoiceStateUpdate(OnVoiceStateUpdate(s, e, env1).state, e, env2).state.roster
         == OnVoiceStateUpdate(s, e, env1).state.roster
  {
    var s1 := OnVoiceStateUpdate(s, e, env1).state;
    assert s1.roster == Assign(s.roster, e.user, false);
    assert OnVoiceStateUpdate(s1, e, env2).state.roster == Assign(s1.roster, e.user, false);
    AssignTwice(s.roster, e.user, false);
  }

}

=== FILE: wrappers.dfy ===
/** The optional value used for the bot's nullable globals (channels, message id). */
module Wrappers {

  /** Python's `None` or a present value. */
  datatype Option<+T> = None | Some(value: T)
}
